=== FILE: README.md ===
# erroz in Dafny

A model of the core of **erroz**, a small library for defining structured error
kinds. Each kind has a stable identity: a name, a machine-readable code, an HTTP
status code and a JSend status (`success`, `fail` or `error`). It also has a
message that is either fixed or computed from the data an instance is built with.
The library exists in two generations, and both are modelled:

- `defineError` (TypeScript, `src/`) validates a definition. It resolves the
  defaults: the code is the slug of the name, the status code is 500, and the
  status is derived from the status code. It then returns a class whose instances
  carry a cleaned stack trace, serialise to a JSend object with `toJSON`, and can be
  recognised again by the static `matches`.
- `erroz` (JavaScript, `lib/`) copies every key of a definition onto a prototype.
  It snapshots that prototype onto each instance and renders a `%placeholder`
  template with the instance data. Its `toJSend` can write the stack into the
  instance's data.

Modules, one per source component:

| file | module | models |
|---|---|---|
| `jsend.dfy` | `JSend` | the status enum, the 2xx/4xx/5xx range predicates, status derivation |
| `stack.dfy` | `Stack` | the regular-expression frame removal applied to a stack trace |
| `renderer.dfy` | `Renderer` | the default `%word` template renderer |
| `define_error.dfy` | `DefineError` | option validation, default resolution, construction, `toJSON`, `matches` |
| `erroz.dfy` | `Erroz` | the legacy factory, its constructor and `toJSend` |
| `values.dfy` | `Values` | the JavaScript values the core touches: truthiness, `typeof`, own-property access, `String(v)` for primitives and plain objects |
| `decimal.dfy` | `Decimal` | `String(n)` for integers, with its parse-back |
| `char_classes.dfy` | `CharClasses` | `\w` and the line terminators that `.` refuses |
| `wrappers.dfy` | `Wrappers` | `Option` and `Result`; an `Err` stands for a thrown exception |

Things the core takes from outside are parameters:

- the `dashify` package is the function `slugify`;
- the process-wide `erroz.options` is an explicit `Config` value;
- the stack trace the host captures is a string argument.

Three behaviours of the code are worth stating plainly:

- `deriveStatusFromStatusCode` is total. It returns `error` for every status code
  outside 2xx, 4xx and 5xx.
- A placeholder whose key is missing from the data renders as `undefined`.
- A string passed to the legacy constructor becomes the instance's data, like any
  other truthy value. It does not replace the message.

## Model

| member | source | states |
|---|---|---|
| JSend.ParseStatusText | src/jSend.ts:1-5 | each status is recovered from its string value, so the three strings are distinct |
| JSend.StatusTextInjective | src/jSend.ts:1-5 | two statuses with the same string value are the same status |
| JSend.RangesAreStatusClasses | src/jSend.ts:14-27 | the success, fail and error ranges are exactly the codes whose hundreds digit is 2, 4 and 5 |
| JSend.RangesDisjoint | src/jSend.ts:14-27 | no status code lies in two of the three ranges |
| JSend.DerivableIffClass | src/jSend.ts:29-32 | a status code is derivable exactly when its hundreds digit is 2, 4 or 5 |
| JSend.DeriveStatus | src/jSend.ts:34-41 | the result is success exactly on 2xx and fail exactly on 4xx; it is error exactly on 5xx and on every code that is not derivable |
| JSend.DeriveStatusByClass | src/jSend.ts:34-41 | on a derivable code the status is read off the hundreds digit; error is the same as class 5 |
| JSend.DeriveStatusBoundaries | src/jSend.ts:34-41 | 200/299 are success, 400/499 are fail, 500/599 are error; 0, 199, 300, 399 and 600 fall through to error |
| Stack.FrameEndAt | src/stack.ts:1 | for a fixed start, the frame pattern matches at most one end; the result is that end, so backtracking order does not matter |
| Stack.FindFrame | src/stack.ts:1-3 | returns the leftmost match at or after a position, and reports none only when no match starts there or later |
| Stack.LeftmostFrameUnique | src/stack.ts:1-3 | there is only one leftmost match, so a non-global replace acts on one determined span |
| Stack.CleanupFirstFrame | src/stack.ts:1-3 | the output equals the input exactly when nothing matches; otherwise the leftmost match is replaced by one "\n", the text around it is kept, and the output is at least 4 characters shorter |
| Stack.FrameMatchLength | src/stack.ts:1 | every match is at least 5 characters long |
| Stack.FrameStart | src/stack.ts:1 | a match starts only at a line break followed by an indent character or by "at" |
| Stack.FirstFrameRemoved | src/stack.ts:1-3 | after a header line, the first frame line is deleted whole, whatever follows it |
| Stack.IndentedFramesKept | src/stack.ts:1-3 | with the pattern as written, a stack whose line breaks are never followed by a word character comes back unchanged |
| Stack.TwoFrameLines | src/stack.ts:1-3 | a header plus two frame lines that start with non-word characters meets that condition |
| Stack.V8StackKeptAsWritten | src/stack.ts:1-3 | with the pattern as written, a V8-style stack with 4-space frame indentation is not cleaned |
| Stack.MessageLineRemovedAsWritten | src/stack.ts:1-3 | with the pattern as written, a message line such as "format x" right after the header is taken for a frame and deleted |
| Stack.V8StackCleanedCorrected | src/stack.ts:1-3 | with a blank indent, the same stack loses exactly its constructor frame line |
| Renderer.WordRun | lib/defaultRenderer.js:11 | the run is a prefix of word characters that cannot be extended, which is what the greedy `\w+` consumes |
| Renderer.Render | lib/defaultRenderer.js:10-14 | a template with no `%word` placeholder is returned unchanged |
| Renderer.RenderPlaceholder | lib/defaultRenderer.js:11-13 | a maximal `%key` is replaced by the value of `key`, and rendering continues after it |
| Renderer.RenderLiteral | lib/defaultRenderer.js:11 | a character that does not start a placeholder is copied; this includes a lone "%" |
| Renderer.RenderConcat | lib/defaultRenderer.js:11-13 | rendering distributes over concatenation when the second part is empty or starts with a non-word character |
| Renderer.SinglePass | lib/defaultRenderer.js:11-13 | replaced text is not scanned again: `%key` renders as the value of `key`, even when that value contains placeholders |
| Renderer.MissingKeyRendersUndefined | lib/defaultRenderer.js:12 | a placeholder whose key is absent from the data renders as the text "undefined" |
| Renderer.NoPercentUnchanged | lib/defaultRenderer.js:11 | text with no "%" renders unchanged |
| Renderer.TwoPlaceholders | lib/defaultRenderer.js:11-13 | two placeholders separated by plain text are both replaced in place |
| Renderer.NotFoundExample | lib/defaultRenderer.js:10-14 | `%resource (%id) not found` renders as the resource, then the id in parentheses, then " not found" |
| DefineError.ValidateOptions | src/main.ts:16-36 | missing options, missing name, missing message and an underivable status code are checked in that order, and the first failure decides the error text; validation passes exactly when none fails, and then returns the options unchanged |
| DefineError.DefineError | src/main.ts:57-61 | fails exactly when validation fails, with the same text; otherwise the name and message are taken as given, the code defaults to the slug of the name, the status code defaults to 500, and the status defaults to the one derived from the resolved status code |
| DefineError.ExplicitFieldsWin | src/main.ts:59-61 | given values always win, even a status code outside every derivable range when a status is given |
| DefineError.BareDefinitionDefaults | src/main.ts:60-61 | a definition with only a name and a message gets the slug code, status code 500 and status error |
| DefineError.DerivedStatusInRange | src/main.ts:31-33 | a derived status always matches the range of its status code, because validation rejected every code outside the ranges |
| DefineError.UnderivableCodeRejected | src/main.ts:31-33 | without a status, a status code outside 2xx, 4xx and 5xx is rejected with the text naming that code |
| DefineError.TestedCodesRejected | src/main.ts:31-33 | without a status, the status codes 0, 100, 199, 300, 399 and 600 are each rejected with the text naming that code |
| DefineError.CannotDeriveStatusInjective | src/main.ts:32 | the rejection text determines the status code that caused it |
| DefineError.RejectionTextFor600 | src/main.ts:32 | status code 600 appears in the rejection text as "600" |
| DefineError.Construct | src/main.ts:63-75 | an instance carries the class's name, code, status code and status and the data it was given; a fixed message is kept verbatim and a function message is applied to the data; the stack is the raw stack cleaned with the corrected frame pattern (see Findings), and never longer than it |
| DefineError.SerialisedShape | src/main.ts:77-82 | a serialised instance has exactly the four JSend keys and no status code; its data is the constructor argument and its message is the class's message for that data |
| DefineError.MatchesOwnInstances | src/main.ts:40-45 | a class recognises the serialised form of its own instance exactly when the data was an object or null |
| DefineError.MatchesIdentifiesKind | src/main.ts:84-88 | a value that a class recognises has that class's code and status |
| DefineError.FalsyNeverMatches | src/main.ts:40-41 | no class recognises a falsy value |
| DefineError.FunctionMessageExample | src/main.ts:70 | a message function is applied to the constructor data: the test suite's function gives "Resource <resource> (<id>) already exists" |
| Values.TypeOf | src/main.ts:42-45 | `typeof` is "object" exactly for objects and null, and "string" exactly for strings |
| Decimal.ParseNatToString | src/main.ts:32 | the decimal text of a non-negative integer parses back to that integer |
| Decimal.IntToStringInjective | src/main.ts:32 | distinct integers have distinct decimal texts |
| Erroz.DefaultRenderMessage | lib/index.js:27 | the default renderer succeeds exactly on a string template, and then renders it with the data's properties; on anything else `replace` throws |
| Erroz.Erroz | lib/index.js:34-45 | the prototype has exactly the definition's keys with their values, plus `toJSend` |
| Erroz.DataOrEmpty | lib/index.js:25 | the stored data is always truthy: the argument when truthy, else an empty object |
| Erroz.Construct | lib/index.js:16-30 | construction fails exactly when there is no truthy copied message and the renderer throws; an instance has the prototype's keys plus data and message, with the prototype's values; the message is the copied one when truthy, else the rendered template |
| Erroz.DefinitionKeysOnInstance | lib/index.js:19-23 | every definition key is an own property of each instance, with the definition's value, except data, message and `toJSend` |
| Erroz.PrototypeEditVisible | lib/index.js:19-23 | an edit of any key other than data and message, made after the class is generated, is seen by later instances, and for such an edit construction still fails or succeeds as before |
| Erroz.TeapotExample | lib/index.js:16-30 | the teapot definition's instance exposes every key, keeps its message and gets empty data |
| Erroz.DefaultConfigRendersTemplate | lib/index.js:27 | with the shipped options, an instance without a copied message gets its template rendered with its own data |
| Erroz.PlaceholderReadsProperty | lib/defaultRenderer.js:11-13 | with the data of an instance, `%key` renders as `String(data[key])`, and as "undefined" when the data has no such property |
| Erroz.NoTemplateEmptyMessage | lib/index.js:27 | with the shipped options, a definition with neither a message nor a template gives instances the empty message, because a missing template falls back to the empty string, which renders to "" |
| Erroz.TemplatedMessageExample | lib/index.js:27 | `%resource (%id) not found` with resource User and id 1 gives "User (1) not found" |
| Erroz.ToJSend | lib/index.js:45-58 | the response has exactly status, code, message and data, read from the instance through the class prototype as it is at the call; when stacks are included and the stack is non-empty, the stack is written into the data object where it was found, and this throws exactly when that data cannot hold properties; no other property changes, and without a stack write nothing changes |
| Erroz.ToJSendIdempotent | lib/index.js:45-58 | calling `toJSend` a second time changes nothing |
| Erroz.LateStatusVisible | lib/index.js:53 | an instance of a definition without a status reports a status the class prototype is given after the instance was built |
| Erroz.ToJSendOfConstructed | lib/index.js:25-58 | on an instance built with object data or no data, `toJSend` never throws, and its data is the instance data plus the stack when one is written |

## Left out

- `dashify` is a separate package. It is the parameter `slugify`, and nothing is assumed about it.
- `src/constants.ts` is not part of this model. `DEFAULT_STATUS_CODE` is taken as 500, as the tests expect.
- The host captures the stack: the `Error` constructor does it through `super(...)` in src/main.ts:70, and `Error.captureStackTrace` does it in lib/AbstractError.js:16. The model does not capture stacks: the raw stack is an argument.
- `util.inherits` and `Object.defineProperty(CustomErrorClass, "name", …)` set up the prototype chain and the class name, and `instanceof` checks against that chain. None of them is modelled. Of the base prototypes, `Error.prototype.message` and `AbstractError.prototype.name` (set once when the module loads) are modelled by `Erroz.Inherited`. The rest of the base prototypes is not modelled.
- Numbers are integers. `NaN`, infinities, fractional status codes (299.5 is a success code in JavaScript) and exponent notation in `String(n)` are left out.
- `JSON.stringify` is not modelled; serialisation is modelled up to the object it would print.
- Values.Get: reads see own properties only. This applies to the data's properties in the renderer and to the reads of `status`, `code`, `message` and `data` in `DefineError.IsCustomError`, which in JavaScript go through the prototype chain. Inherited `Object.prototype` members and the index and `length` properties of strings are left out. Keys such as `constructor` and `__proto__` are not treated specially.
- Values.ToDisplayString: every object prints as "[object Object]". Arrays (`String(["a", "b"])` is "a,b") and objects with their own or an inherited `toString`, such as dates and errors, print differently in JavaScript. So a placeholder bound to an array renders differently from the code.
- Custom renderers and custom `toJSON` from the examples are not modelled: any renderer can be passed in `Config`.
- `examples/httpError.js` is not modelled.
- DefineError.Construct: the stack is cleaned with the corrected frame pattern, not with the `\w*` pattern that src/main.ts:73 applies. On a V8 stack the code keeps the constructor frame and the model removes it. `Stack.V8StackKeptAsWritten` states what the code does.
- DefineError.Construct: a message function cannot throw here. In the code, a message function that throws makes the constructor throw.
- Erroz.ToJSend: values carry no object identity. In the code `this.data` is the caller's object, so writing the stack also changes that object and every other instance that shares it. The model updates only the returned instance or class prototype.
- Erroz.Construct: the legacy constructor ends by calling `AbstractError` (lib/index.js:29), which only captures the stack (lib/AbstractError.js:15-17). That stack is the `stack` argument.

## Findings

| source | as written | input that shows it | evidently intended | confidence | as-written member | corrected member |
|---|---|---|---|---|---|---|
| src/stack.ts:1 | the frame pattern allows only `\w*` between the line break and "at" | a V8-style stack `Error: boom\n    at new E (main.ts:70:9)\n    at run (app.ts:3:1)\n`: spaces are not `\w`, so nothing matches and the stack comes back unchanged | remove the first frame line, which is indented with spaces | medium, not executed | Stack.V8StackKeptAsWritten | Stack.V8StackCleanedCorrected |

The as-written half is `Stack.CleanupStack`. `Stack.IndentedFramesKept` proves that it returns any stack unchanged when every line starts with a non-word character. `Stack.MessageLineRemovedAsWritten` shows the other side of the same pattern: a message line such as "format x" is deleted instead of a frame. The corrected half is `Stack.CleanupStackCorrected`, which allows spaces and tabs as the indent. `Stack.FirstFrameRemoved` proves that it deletes exactly the first frame line, and `DefineError.Construct` uses it.

=== FILE: char_classes.dfy ===
/** The two JavaScript regular-expression character classes the core relies on. */
module CharClasses {

  /** `\w` without the `u` flag: ASCII letters, digits and underscore. */
  predicate IsWordChar(c: char) {
    ('a' <= c <= 'z') || ('A' <= c <= 'Z') || ('0' <= c <= '9') || c == '_'
  }

  /** The characters that `.` refuses to match: LF, CR, LINE SEPARATOR, PARAGRAPH SEPARATOR. */
  predicate IsLineTerminator(c: char) {
    c == '\n' || c == '\r' || c == '\U{2028}' || c == '\U{2029}'
  }
}

=== FILE: decimal.dfy ===
/** Decimal text of integers, as JavaScript's `String(n)` writes an integral Number. */
module Decimal {

  predicate IsDigit(c: char) {
    '0' <= c <= '9'
  }

  predicate AllDigits(s: string) {
    forall i :: 0 <= i < |s| ==> IsDigit(s[i])
  }

  function DigitChar(d: nat): (c: char)
    requires d < 10
    ensures IsDigit(c)
  {
    (48 + d) as char
  }

  function DigitValue(c: char): (d: nat)
    requires IsDigit(c)
    ensures d < 10
  {
    (c as int) - 48
  }

  /** Shortest decimal text of `n`: digits only, no leading zero except for "0" itself. */
  function NatToString(n: nat): (s: string)
    ensures |s| >= 1 && AllDigits(s)
    ensures |s| > 1 ==> s[0] != '0'
    ensures (n == 0) <==> s == "0"
    decreases n
  {
    if n < 10 then [DigitChar(n)]
    else NatToString(n / 10) + [DigitChar(n % 10)]
  }

  /** The value of a string of decimal digits (the empty string reads as 0). */
  function ParseDigits(s: string): nat
    requires AllDigits(s)
    decreases |s|
  {
    if |s| == 0 then 0
    else ParseDigits(s[..|s| - 1]) * 10 + DigitValue(s[|s| - 1])
  }

  /** Reading back the text of `n` gives `n`. */
  lemma {:induction false} ParseNatToString(n: nat)
    ensures ParseDigits(NatToString(n)) == n
    decreases n
  {
    var s := NatToString(n);
    if n < 10 {
      assert s[..0] == [];
    } else {
      ParseNatToString(n / 10);
      assert s[..|s| - 1] == NatToString(n / 10);
    }
  }

  /** `String(i)` for an integral Number `i` (below 10^21 in magnitude, where JavaScript switches to exponent form). */
  function IntToString(i: int): (s: string)
    ensures |s| >= 1
    ensures i < 0 <==> s[0] == '-'
  {
    if i < 0 then "-" + NatToString(-i) else NatToString(i)
  }

  /** Distinct integers have distinct decimal texts. */
  lemma IntToStringInjective(a: int, b: int)
    requires IntToString(a) == IntToString(b)
    ensures a == b
  {
    if a < 0 {
      assert b < 0;
      var sa := IntToString(a);
      assert sa[1..] == NatToString(-a);
      assert IntToString(b)[1..] == NatToString(-b);
      ParseNatToString(-a);
      ParseNatToString(-b);
    } else {
      ParseNatToString(a);
      ParseNatToString(b);
    }
  }
}

=== FILE: define_error.dfy ===
/**
 * `defineError`: validation of a definition, resolution of its defaults, and the
 * error class it returns (construction, `toJSON`, static `matches`).
 */
module DefineError {
  import opened Wrappers
  import opened Values
  import opened JSend
  import Decimal
  import Stack

  /** The status code a definition gets when it names none. */
  const DefaultStatusCode: int := 500

  /** A definition's message: a fixed string, or a function of the instance's data. */
  datatype Message = Fixed(text: string) | FromData(render: Value -> string)

  /** The options passed to `defineError`; `None` marks a property that is `undefined`. */
  datatype Definition = Definition(
    name: Option<string>,
    message: Option<Message>,
    code: Option<string>,
    status: Option<Status>,
    statusCode: Option<int>)

  const MissingOptions: string := "Missing options for defineError()"
  const MissingName: string := "Missing \"name\" property in defineError() options"
  const MissingMessage: string := "Missing \"message\" property in defineError() options"
  const CannotDerivePrefix: string := "Cannot derive status from status code "
  const CannotDeriveSuffix: string := ". When the status code is not 2xx, 4xx or 5xx, you need to specify an explicit status like \"success\", \"fail\" or \"error\"."

  /** The error text for a status code no status can be derived from. */
  function CannotDeriveStatus(statusCode: int): string {
    CannotDerivePrefix + Decimal.IntToString(statusCode) + CannotDeriveSuffix
  }

  /** The status-code check passes: an explicit status, no status code, or a derivable one. */
  predicate StatusResolvable(d: Definition) {
    d.status.Some? || d.statusCode.None? || StatusIsDerivable(d.statusCode.value)
  }

  /**
   * `validateOptions`: options present, then name, then message, then the status
   * code; the first check that fails decides the error text.
   */
  function ValidateOptions(options: Option<Definition>): (r: Result<Definition, string>)
    ensures options.None? ==> r == Err(MissingOptions)
    ensures options.Some? && options.value.name.None? ==> r == Err(MissingName)
    ensures options.Some? && options.value.name.Some? && options.value.message.None? ==> r == Err(MissingMessage)
    ensures options.Some? && options.value.name.Some? && options.value.message.Some? && !StatusResolvable(options.value) ==>
              r == Err(CannotDeriveStatus(options.value.statusCode.value))
    ensures r.Ok? <==> options.Some? && options.value.name.Some? && options.value.message.Some? && StatusResolvable(options.value)
    ensures r.Ok? ==> options == Some(r.value)
  {
    if options.None? then Err(MissingOptions)
    else
      var d := options.value;
      if d.name.None? then Err(MissingName)
      else if d.message.None? then Err(MissingMessage)
      else if d.status.None? && d.statusCode.Some? && !StatusIsDerivable(d.statusCode.value) then
        Err(CannotDeriveStatus(d.statusCode.value))
      else Ok(d)
  }

  /** The resolved identity of an error kind, fixed once when it is defined. */
  datatype ErrorClass = ErrorClass(name: string, code: string, statusCode: int, status: Status, message: Message)

  /**
   * `defineError`. `slugify` stands for the `dashify` package, which derives the
   * default code from the name.
   */
  function DefineError(options: Option<Definition>, slugify: string -> string): (r: Result<ErrorClass, string>)
    ensures r.Err? <==> ValidateOptions(options).Err?
    ensures r.Err? ==> r.error == ValidateOptions(options).error
    ensures r.Ok? ==> options.Some? && options.value.name == Some(r.value.name) && options.value.message == Some(r.value.message)
    ensures r.Ok? ==> r.value.code == options.value.code.GetOr(slugify(r.value.name))
    ensures r.Ok? ==> r.value.statusCode == options.value.statusCode.GetOr(DefaultStatusCode)
    ensures r.Ok? ==> r.value.status == options.value.status.GetOr(DeriveStatus(r.value.statusCode))
  {
    match ValidateOptions(options)
    case Err(e) => Err(e)
    case Ok(d) =>
      var name := d.name.value;
      var code := d.code.GetOr(slugify(name));
      var statusCode := d.statusCode.GetOr(DefaultStatusCode);
      var status := d.status.GetOr(DeriveStatus(statusCode));
      Ok(ErrorClass(name, code, statusCode, status, d.message.value))
  }

  /** Given values always win, even a status code outside every derivable range. */
  lemma ExplicitFieldsWin(name: string, message: Message, code: string, status: Status, statusCode: int, slugify: string -> string)
    ensures DefineError(Some(Definition(Some(name), Some(message), Some(code), Some(status), Some(statusCode))), slugify)
              == Ok(ErrorClass(name, code, statusCode, status, message))
  {
  }

  /** With only a name and a message: the code is the slug of the name, the status code 500, the status error. */
  lemma BareDefinitionDefaults(name: string, message: Message, slugify: string -> string)
    ensures DefineError(Some(Definition(Some(name), Some(message), None, None, None)), slugify)
              == Ok(ErrorClass(name, slugify(name), 500, Error, message))
  {
  }

  /**
   * A derived status always agrees with the range of the resolved status code:
   * validation has rejected every code outside 2xx, 4xx and 5xx.
   */
  lemma DerivedStatusInRange(options: Option<Definition>, slugify: string -> string)
    requires DefineError(options, slugify).Ok?
    requires options.value.status.None?
    ensures var c := DefineError(options, slugify).value;
      && StatusIsDerivable(c.statusCode)
      && (c.status == Success <==> IsSuccessStatus(c.statusCode))
      && (c.status == Fail <==> IsFailStatus(c.statusCode))
      && (c.status == Error <==> IsErrorStatus(c.statusCode))
  {
    var c := DefineError(options, slugify).value;
    RangesDisjoint(c.statusCode);
  }

  /** With no explicit status, a status code outside 2xx, 4xx and 5xx is rejected with a text naming it. */
  lemma UnderivableCodeRejected(name: string, message: Message, code: Option<string>, statusCode: int, slugify: string -> string)
    requires !StatusIsDerivable(statusCode)
    ensures DefineError(Some(Definition(Some(name), Some(message), code, None, Some(statusCode))), slugify)
              == Err(CannotDeriveStatus(statusCode))
  {
  }

  /** The codes the test suite rejects: 0, 100, 199, 300, 399 and 600 have no derivable status. */
  lemma TestedCodesRejected(name: string, message: Message, slugify: string -> string)
    ensures forall c :: c in {0, 100, 199, 300, 399, 600} ==>
              DefineError(Some(Definition(Some(name), Some(message), None, None, Some(c))), slugify) == Err(CannotDeriveStatus(c))
  {
    forall c | c in {0, 100, 199, 300, 399, 600}
      ensures DefineError(Some(Definition(Some(name), Some(message), None, None, Some(c))), slugify) == Err(CannotDeriveStatus(c))
    {
      UnderivableCodeRejected(name, message, None, c, slugify);
    }
  }

  /** The rejection text determines the status code that caused it. */
  lemma CannotDeriveStatusInjective(a: int, b: int)
    requires CannotDeriveStatus(a) == CannotDeriveStatus(b)
    ensures a == b
  {
    var sa, sb := Decimal.IntToString(a), Decimal.IntToString(b);
    var p, q := |CannotDerivePrefix|, |CannotDeriveSuffix|;
    assert CannotDeriveStatus(a)[p..|CannotDeriveStatus(a)| - q] == sa;
    assert CannotDeriveStatus(b)[p..|CannotDeriveStatus(b)| - q] == sb;
    Decimal.IntToStringInjective(a, b);
  }

  /** The tested status code 600, rendered into the rejection text. */
  lemma RejectionTextFor600()
    ensures CannotDeriveStatus(600) == CannotDerivePrefix + "600" + CannotDeriveSuffix
  {
    assert Decimal.NatToString(6) == "6";
    assert Decimal.NatToString(60) == "60";
    assert Decimal.NatToString(600) == "600";
  }

  /** One instance of an error class. */
  datatype CustomError = CustomError(
    name: string, code: string, statusCode: int, status: Status,
    message: string, data: Value, stack: string)

  /** The instance message: the fixed string verbatim, or the function applied to the data. */
  function MessageFor(m: Message, data: Value): string {
    match m
    case Fixed(text) => text
    case FromData(render) => render(data)
  }

  /**
   * `new CustomErrorClass(data)`. The host's raw stack trace is a parameter; it is
   * cleaned with the corrected frame pattern (see the findings in README.md).
   */
  function Construct(cls: ErrorClass, data: Value, rawStack: string): (e: CustomError)
    ensures e.name == cls.name && e.code == cls.code && e.statusCode == cls.statusCode && e.status == cls.status
    ensures e.data == data
    ensures cls.message.Fixed? ==> e.message == cls.message.text
    ensures cls.message.FromData? ==> e.message == cls.message.render(data)
    ensures e.stack == Stack.CleanupStackCorrected(rawStack) && |e.stack| <= |rawStack|
  {
    CustomError(cls.name, cls.code, cls.statusCode, cls.status, MessageFor(cls.message, data), data,
                Stack.CleanupStackCorrected(rawStack))
  }

  /** The JSend payload of an instance. */
  datatype JSendResponse = JSendResponse(status: Status, code: string, message: string, data: Value)

  /** `toJSON`: the instance's status, code, message and data, and nothing else. */
  function ToJSON(e: CustomError): (r: JSendResponse)
    ensures r.status == e.status && r.code == e.code && r.message == e.message && r.data == e.data
  {
    JSendResponse(e.status, e.code, e.message, e.data)
  }

  /** A JSend payload as a JavaScript object. */
  function ResponseValue(r: JSendResponse): (v: Value)
    ensures v.Obj? && v.fields.Keys == {"status", "code", "message", "data"}
    ensures Get(v, "status") == Str(StatusText(r.status)) && Get(v, "code") == Str(r.code)
    ensures Get(v, "message") == Str(r.message) && Get(v, "data") == r.data
  {
    Obj(map["status" := Str(StatusText(r.status)), "code" := Str(r.code), "message" := Str(r.message), "data" := r.data])
  }

  /** The serialised instance has exactly the four JSend keys; the status code stays off the wire. */
  lemma SerialisedShape(cls: ErrorClass, data: Value, rawStack: string)
    ensures var v := ResponseValue(ToJSON(Construct(cls, data, rawStack)));
      && v.Obj? && v.fields.Keys == {"status", "code", "message", "data"}
      && "statusCode" !in v.fields
      && Get(v, "data") == data
      && Get(v, "status") == Str(StatusText(cls.status))
      && Get(v, "message") == Str(MessageFor(cls.message, data))
  {
  }

  /** `isCustomError`: truthy, with string status, code and message and an object-typed data. */
  predicate IsCustomError(x: Value) {
    && IsTruthy(x)
    && TypeOf(Get(x, "status")) == "string"
    && TypeOf(Get(x, "code")) == "string"
    && TypeOf(Get(x, "message")) == "string"
    && TypeOf(Get(x, "data")) == "object"
  }

  /** Static `matches`: a JSend-shaped value with this class's code and status. */
  predicate Matches(cls: ErrorClass, x: Value) {
    && IsCustomError(x)
    && Get(x, "code") == Str(cls.code)
    && Get(x, "status") == Str(StatusText(cls.status))
  }

  /** A class recognises the serialised form of its own instances exactly when their data is an object or null. */
  lemma MatchesOwnInstances(cls: ErrorClass, data: Value, rawStack: string)
    ensures Matches(cls, ResponseValue(ToJSON(Construct(cls, data, rawStack)))) <==> (data.Obj? || data.Null?)
  {
  }

  /** A value some class matches carries that class's code and status, so it identifies the error kind. */
  lemma MatchesIdentifiesKind(cls: ErrorClass, other: ErrorClass, data: Value, rawStack: string)
    requires Matches(other, ResponseValue(ToJSON(Construct(cls, data, rawStack))))
    ensures other.code == cls.code && other.status == cls.status
  {
    StatusTextInjective(other.status, cls.status);
  }

  /** Falsy values never match, whatever the class. */
  lemma FalsyNeverMatches(cls: ErrorClass, x: Value)
    requires !IsTruthy(x)
    ensures !Matches(cls, x)
  {
  }

  /** The message function of the test suite: "Resource <resource> (<id>) already exists". */
  function AlreadyExists(data: Value): string {
    "Resource " + ToDisplayString(Get(data, "resource")) + " (" + ToDisplayString(Get(data, "id")) + ") already exists"
  }

  /** A function message is applied to the data the instance is constructed with. */
  lemma FunctionMessageExample(cls: ErrorClass, resource: string, id: string, rawStack: string)
    requires cls.message == FromData(AlreadyExists)
    ensures Construct(cls, Obj(map["resource" := Str(resource), "id" := Str(id)]), rawStack).message
              == "Resource " + resource + " (" + id + ") already exists"
  {
    var data := Obj(map["resource" := Str(resource), "id" := Str(id)]);
    assert ToDisplayString(Get(data, "resource")) == resource;
    assert ToDisplayString(Get(data, "id")) == id;
  }
}

=== FILE: erroz.dfy ===
/**
 * The legacy `erroz` factory: definition keys copied onto a prototype, the prototype
 * snapshotted onto each instance, a rendered message, and `toJSend`.
 */
module Erroz {
  import opened Wrappers
  import opened Values
  import Renderer
  import Decimal

  /**
   * The process-wide `erroz.options`, passed explicitly. `renderMessage` receives the
   * template and the instance data and either returns the message or throws.
   */
  datatype Config = Config(renderMessage: (Value, Value) -> Result<string, string>, includeStack: bool)

  /** The built-in renderer; calling `replace` on a template that is not a string throws. */
  function DefaultRenderMessage(template: Value, data: Value): (r: Result<string, string>)
    ensures template.Str? <==> r.Ok?
    ensures template.Str? ==> r.value == Renderer.Render(template.s, PropertyStrings(data))
  {
    match template
    case Str(t) => Ok(Renderer.Render(t, PropertyStrings(data)))
    case _ => Err("TypeError: template.replace is not a function")
  }

  /** The shipped configuration: the default renderer, stacks included in `toJSend`. */
  const DefaultConfig: Config := Config(DefaultRenderMessage, true)

  /** The `toJSend` function stored on every generated prototype. */
  const ToJSendMethod: Value := Func("toJSend", map[])

  /** A generated error class: the definition it closes over and its prototype's own properties. */
  datatype ErrozClass = ErrozClass(definition: map<string, Value>, prototype: map<string, Value>)

  /** `erroz(definition)`: every own key of the definition is copied onto the prototype, then `toJSend` is added. */
  function Erroz(definition: map<string, Value>): (c: ErrozClass)
    ensures c.definition == definition
    ensures c.prototype.Keys == definition.Keys + {"toJSend"}
    ensures forall k :: k in definition && k != "toJSend" ==> c.prototype[k] == definition[k]
    ensures c.prototype["toJSend"] == ToJSendMethod
  {
    ErrozClass(definition, definition["toJSend" := ToJSendMethod])
  }

  /** `ErrorClass.prototype[key] = v`, done after the class was generated. */
  function SetPrototypeField(c: ErrozClass, key: string, v: Value): (c': ErrozClass)
    ensures c'.definition == c.definition
    ensures c'.prototype.Keys == c.prototype.Keys + {key} && c'.prototype[key] == v
    ensures forall k :: k in c.prototype && k != key ==> c'.prototype[k] == c.prototype[k]
  {
    c.(prototype := c.prototype[key := v])
  }

  /** An instance: its own properties and the stack trace the host captured for it. */
  datatype ErrozError = ErrozError(fields: map<string, Value>, stack: string)

  /** `this.data = data || {}`. */
  function DataOrEmpty(data: Value): (d: Value)
    ensures IsTruthy(d)
    ensures IsTruthy(data) ==> d == data
    ensures !IsTruthy(data) ==> d == Obj(map[])
  {
    if IsTruthy(data) then data else Obj(map[])
  }

  /**
   * `this.message` right after the prototype was copied: the copied value, or the
   * empty `Error.prototype.message` when the prototype has none.
   */
  function CopiedMessage(c: ErrozClass): Value {
    if "message" in c.prototype then c.prototype["message"] else Str("")
  }

  /** `error.template || ""`, read from the definition, not from the prototype. */
  function TemplateOf(c: ErrozClass): (t: Value)
    ensures IsTruthy(Get(Obj(c.definition), "template")) ==> t == c.definition["template"]
    ensures !IsTruthy(Get(Obj(c.definition), "template")) ==> t == Str("")
  {
    var t := Get(Obj(c.definition), "template");
    if IsTruthy(t) then t else Str("")
  }

  /**
   * `new ErrorClass(data)`: the prototype's own properties as they are now, then the
   * data, then the message: a truthy copied message is kept, otherwise the configured
   * renderer produces it. A renderer that throws makes construction throw.
   */
  function Construct(config: Config, c: ErrozClass, data: Value, stack: string): (r: Result<ErrozError, string>)
    ensures r.Err? <==> !IsTruthy(CopiedMessage(c)) && config.renderMessage(TemplateOf(c), DataOrEmpty(data)).Err?
    ensures r.Ok? ==> r.value.fields.Keys == c.prototype.Keys + {"data", "message"}
    ensures r.Ok? ==> forall k :: k in c.prototype && k != "data" && k != "message" ==> r.value.fields[k] == c.prototype[k]
    ensures r.Ok? ==> r.value.fields["data"] == DataOrEmpty(data)
    ensures r.Ok? && IsTruthy(CopiedMessage(c)) ==> r.value.fields["message"] == CopiedMessage(c)
    ensures r.Ok? && !IsTruthy(CopiedMessage(c)) ==>
              && r.value.fields["message"].Str?
              && config.renderMessage(TemplateOf(c), DataOrEmpty(data)) == Ok(r.value.fields["message"].s)
    ensures r.Ok? ==> r.value.stack == stack
  {
    var d := DataOrEmpty(data);
    var own := c.prototype["data" := d];
    var copied := CopiedMessage(c);
    if IsTruthy(copied) then Ok(ErrozError(own["message" := copied], stack))
    else
      match config.renderMessage(TemplateOf(c), d)
      case Err(e) => Err(e)
      case Ok(m) => Ok(ErrozError(own["message" := Str(m)], stack))
  }

  /** Every key of the definition, however arbitrary, is an own property of every instance. */
  lemma DefinitionKeysOnInstance(config: Config, definition: map<string, Value>, data: Value, stack: string)
    requires Construct(config, Erroz(definition), data, stack).Ok?
    ensures var fields := Construct(config, Erroz(definition), data, stack).value.fields;
      && definition.Keys + {"toJSend", "data", "message"} == fields.Keys
      && forall k :: k in definition && k !in {"toJSend", "data", "message"} ==> fields[k] == definition[k]
  {
  }

  /** An instance reflects the prototype as it is when the instance is constructed, later edits included. */
  lemma PrototypeEditVisible(config: Config, c: ErrozClass, key: string, v: Value, data: Value, stack: string)
    requires key != "data" && key != "message"
    ensures Construct(config, SetPrototypeField(c, key, v), data, stack).Ok? <==> Construct(config, c, data, stack).Ok?
    ensures Construct(config, SetPrototypeField(c, key, v), data, stack).Ok? ==>
              Construct(config, SetPrototypeField(c, key, v), data, stack).value.fields[key] == v
  {
    assert CopiedMessage(SetPrototypeField(c, key, v)) == CopiedMessage(c);
  }

  /** The definition of the test suite: arbitrary flags, a status, a status code and a fixed message. */
  const Teapot: map<string, Value> := map[
    "goodError" := Bool(true), "badError" := Bool(false), "status" := Str("fail"),
    "statusCode" := Num(418), "message" := Str("I'm a teapot")]

  /** Constructed without data, a teapot error keeps its message, exposes every key and gets empty data. */
  lemma TeapotExample(config: Config, stack: string)
    ensures var r := Construct(config, Erroz(Teapot), Undefined, stack);
      && r.Ok?
      && Teapot.Keys <= r.value.fields.Keys
      && r.value.fields["message"] == Str("I'm a teapot")
      && r.value.fields["goodError"] == Bool(true)
      && r.value.fields["data"] == Obj(map[])
  {
    assert CopiedMessage(Erroz(Teapot)) == Str("I'm a teapot");
  }

  /**
   * With the default configuration, an instance whose prototype carries no truthy
   * message gets its definition's template rendered with its own data.
   */
  lemma DefaultConfigRendersTemplate(c: ErrozClass, data: Value, stack: string)
    requires !IsTruthy(CopiedMessage(c)) && TemplateOf(c).Str?
    ensures var r := Construct(DefaultConfig, c, data, stack);
      && r.Ok?
      && r.value.fields["message"] == Str(Renderer.Render(TemplateOf(c).s, PropertyStrings(DataOrEmpty(data))))
  {
  }

  /**
   * Under the default renderer a placeholder reads the data's own property and
   * converts it with `String`; an absent property reads as `undefined`.
   */
  lemma PlaceholderReadsProperty(key: string, data: Value)
    requires Renderer.IsKey(key)
    ensures Renderer.Render("%" + key, PropertyStrings(data)) == ToDisplayString(Get(data, key))
  {
    Renderer.SinglePass(key, PropertyStrings(data));
  }

  /** A definition with neither a message nor a template gives, under the default renderer, the empty message. */
  lemma NoTemplateEmptyMessage(definition: map<string, Value>, data: Value, stack: string)
    requires "message" !in definition && "template" !in definition
    ensures var r := Construct(DefaultConfig, Erroz(definition), data, stack);
      r.Ok? && r.value.fields["message"] == Str("")
  {
    var c := Erroz(definition);
    assert CopiedMessage(c) == Str("");
    assert TemplateOf(c) == Str("");
    DefaultConfigRendersTemplate(c, data, stack);
  }

  /** The definition of the templated-message example, for a given template. */
  function NotFound(template: string): map<string, Value> {
    map["name" := Str("NotFound"), "code" := Str("not-found"), "status" := Str("fail"),
        "statusCode" := Num(404), "template" := Str(template)]
  }

  /** The templated-message example: a resource `User` with id 1 is reported as `User (1) not found`. */
  lemma TemplatedMessageExample(template: string, resource: string, id: int, stack: string)
    requires template == "%resource (%id) not found"
    ensures var r := Construct(DefaultConfig, Erroz(NotFound(template)), Obj(map["resource" := Str(resource), "id" := Num(id)]), stack);
      r.Ok? && r.value.fields["message"] == Str(resource + " (" + Decimal.IntToString(id) + ") not found")
  {
    var data := Obj(map["resource" := Str(resource), "id" := Num(id)]);
    var c := Erroz(NotFound(template));
    NotFoundClass(template);
    NotFoundData(resource, id);
    DefaultConfigRendersTemplate(c, data, stack);
    Renderer.NotFoundExample(template, resource, Decimal.IntToString(id));
  }

  lemma NotFoundClass(template: string)
    ensures CopiedMessage(Erroz(NotFound(template))) == Str("")
    ensures TemplateOf(Erroz(NotFound(template))) == Str(template)
  {
  }

  lemma NotFoundData(resource: string, id: int)
    ensures PropertyStrings(Obj(map["resource" := Str(resource), "id" := Num(id)]))
              == map["resource" := resource, "id" := Decimal.IntToString(id)]
  {
    var data := Obj(map["resource" := Str(resource), "id" := Num(id)]);
    assert PropertyStrings(data).Keys == {"resource", "id"};
  }

  /**
   * The properties the base prototypes of every erroz class provide:
   * `Error.prototype.message` and `AbstractError.prototype.name`.
   */
  function Inherited(key: string): Value {
    if key == "message" then Str("")
    else if key == "name" then Str("AbstractError")
    else Undefined
  }

  /**
   * `this[key]` on an instance of class `c`: an own property, else the class
   * prototype as it is now, later edits included, else the base prototypes.
   */
  function Read(c: ErrozClass, e: ErrozError, key: string): Value {
    if key in e.fields then e.fields[key]
    else if key in c.prototype then c.prototype[key]
    else Inherited(key)
  }

  /**
   * The result of `toJSend`, with the class and the instance after it: the stack is
   * written into the data object where `this.data` found it, on the instance or on
   * the class prototype.
   */
  datatype JSendOutcome = JSendOutcome(response: Value, cls: ErrozClass, instance: ErrozError)

  /** `toJSend` writes the stack into the data exactly when stacks are configured and this one is non-empty. */
  predicate WritesStack(config: Config, e: ErrozError) {
    config.includeStack && e.stack != ""
  }

  /**
   * `toJSend`: an object of exactly status, code, message and data. When configured,
   * the stack is first written into the data object, which the response shares;
   * writing it into a primitive throws.
   */
  function ToJSend(config: Config, c: ErrozClass, e: ErrozError): (r: Result<JSendOutcome, string>)
    ensures !WritesStack(config, e) ==> r.Ok? && r.value.cls == c && r.value.instance == e
    ensures WritesStack(config, e) ==> (r.Ok? <==> HoldsProperties(Read(c, e, "data")))
    ensures r.Ok? && WritesStack(config, e) ==>
              Read(r.value.cls, r.value.instance, "data") == Set(Read(c, e, "data"), "stack", Str(e.stack))
    ensures r.Ok? ==> && r.value.instance.stack == e.stack
                      && r.value.instance.fields.Keys == e.fields.Keys
                      && r.value.cls.definition == c.definition
                      && r.value.cls.prototype.Keys == c.prototype.Keys
    ensures r.Ok? ==> forall k :: k != "data" ==> Read(r.value.cls, r.value.instance, k) == Read(c, e, k)
    ensures r.Ok? ==> r.value.response.Obj? && r.value.response.fields.Keys == {"status", "code", "message", "data"}
    ensures r.Ok? ==> && Get(r.value.response, "status") == Read(c, e, "status")
                      && Get(r.value.response, "code") == Read(c, e, "code")
                      && Get(r.value.response, "message") == Read(c, e, "message")
    ensures r.Ok? ==> Get(r.value.response, "data") == Read(r.value.cls, r.value.instance, "data")
  {
    var data := Read(c, e, "data");
    if WritesStack(config, e) && !HoldsProperties(data) then
      Err("TypeError: cannot create property 'stack' on a primitive")
    else
      var data' := if WritesStack(config, e) then Set(data, "stack", Str(e.stack)) else data;
      var response := Obj(map["status" := Read(c, e, "status"), "code" := Read(c, e, "code"),
                              "message" := Read(c, e, "message"), "data" := data']);
      if !WritesStack(config, e) then Ok(JSendOutcome(response, c, e))
      else if "data" in e.fields then Ok(JSendOutcome(response, c, e.(fields := e.fields["data" := data'])))
      else Ok(JSendOutcome(response, c.(prototype := c.prototype["data" := data']), e))
  }

  /** Calling `toJSend` again changes nothing: the stack is already in the data. */
  lemma ToJSendIdempotent(config: Config, c: ErrozClass, e: ErrozError)
    requires ToJSend(config, c, e).Ok?
    ensures var first := ToJSend(config, c, e).value;
      ToJSend(config, first.cls, first.instance) == Ok(first)
  {
    var first := ToJSend(config, c, e).value;
    if WritesStack(config, e) {
      var d := Read(c, e, "data");
      var d' := Set(d, "stack", Str(e.stack));
      assert Read(first.cls, first.instance, "data") == d';
      assert Set(d', "stack", Str(e.stack)) == d';
      if "data" in e.fields {
        assert first.instance.fields["data" := d'] == first.instance.fields;
      } else {
        assert first.cls.prototype["data" := d'] == first.cls.prototype;
      }
    }
  }

  /** An instance built from object data or from no data never makes `toJSend` throw. */
  lemma ToJSendOfConstructed(config: Config, c: ErrozClass, data: Value, stack: string)
    requires data.Obj? || !IsTruthy(data)
    requires Construct(config, c, data, stack).Ok?
    ensures var e := Construct(config, c, data, stack).value;
      && ToJSend(config, c, e).Ok?
      && Get(ToJSend(config, c, e).value.response, "data")
           == (if WritesStack(config, e) then Set(DataOrEmpty(data), "stack", Str(stack)) else DataOrEmpty(data))
  {
  }

  /**
   * An instance of a class whose definition has no status reports the status the
   * class prototype is given later, through the prototype chain.
   */
  lemma LateStatusVisible(config: Config, c: ErrozClass, data: Value, stack: string, status: Value)
    requires "status" !in c.prototype
    requires Construct(config, c, data, stack).Ok?
    ensures var e := Construct(config, c, data, stack).value;
      var edited := SetPrototypeField(c, "status", status);
      && (ToJSend(config, edited, e).Ok? <==> ToJSend(config, c, e).Ok?)
      && (ToJSend(config, edited, e).Ok? ==> Get(ToJSend(config, edited, e).value.response, "status") == status)
  {
    var e := Construct(config, c, data, stack).value;
    assert Read(SetPrototypeField(c, "status", status), e, "data") == Read(c, e, "data");
  }
}

=== FILE: jsend.dfy ===
/** JSend statuses and their derivation from an HTTP status code. */
module JSend {
  import opened Wrappers

  /** The coarse JSend status. */
  datatype Status = Success | Fail | Error

  /** The string value of each enum member. */
  function StatusText(s: Status): string {
    match s
    case Success => "success"
    case Fail => "fail"
    case Error => "error"
  }

  /** The enum member whose string value is `t`, if any. */
  function ParseStatus(t: string): (r: Option<Status>)
    ensures r.Some? ==> StatusText(r.value) == t
  {
    if t == "success" then Some(Success)
    else if t == "fail" then Some(Fail)
    else if t == "error" then Some(Error)
    else None
  }

  /** Every member is recovered from its string, so distinct members have distinct strings. */
  lemma ParseStatusText(s: Status)
    ensures ParseStatus(StatusText(s)) == Some(s)
  {
  }

  lemma StatusTextInjective(a: Status, b: Status)
    ensures StatusText(a) == StatusText(b) ==> a == b
  {
    ParseStatusText(a);
    ParseStatusText(b);
  }

  predicate IsSuccessStatus(httpStatusCode: int) {
    httpStatusCode >= 200 && httpStatusCode < 300
  }

  predicate IsFailStatus(httpStatusCode: int) {
    httpStatusCode >= 400 && httpStatusCode < 500
  }

  predicate IsErrorStatus(httpStatusCode: int) {
    httpStatusCode >= 500 && httpStatusCode < 600
  }

  predicate StatusIsDerivable(statusCode: int) {
    IsSuccessStatus(statusCode) || IsFailStatus(statusCode) || IsErrorStatus(statusCode)
  }

  /** The hundreds digit of a status code: 2 for 2xx, 4 for 4xx, and so on. */
  function StatusClass(statusCode: int): int {
    statusCode / 100
  }

  /** The three range predicates are exactly the 2xx, 4xx and 5xx classes. */
  lemma RangesAreStatusClasses(c: int)
    ensures IsSuccessStatus(c) <==> StatusClass(c) == 2
    ensures IsFailStatus(c) <==> StatusClass(c) == 4
    ensures IsErrorStatus(c) <==> StatusClass(c) == 5
  {
  }

  /** At most one range predicate holds for any code. */
  lemma RangesDisjoint(c: int)
    ensures !(IsSuccessStatus(c) && IsFailStatus(c))
    ensures !(IsSuccessStatus(c) && IsErrorStatus(c))
    ensures !(IsFailStatus(c) && IsErrorStatus(c))
  {
  }

  /** A code is derivable exactly when its class is 2, 4 or 5. */
  lemma DerivableIffClass(c: int)
    ensures StatusIsDerivable(c) <==> StatusClass(c) in {2, 4, 5}
  {
    RangesAreStatusClasses(c);
  }

  /**
   * Total mapping from a status code to a status: 2xx is success, 4xx is fail,
   * and everything else, in range or not, falls through to error.
   */
  function DeriveStatus(httpStatusCode: int): (s: Status)
    ensures s == Success <==> IsSuccessStatus(httpStatusCode)
    ensures s == Fail <==> IsFailStatus(httpStatusCode)
    ensures s == Error <==> IsErrorStatus(httpStatusCode) || !StatusIsDerivable(httpStatusCode)
  {
    if IsSuccessStatus(httpStatusCode) then Success
    else if IsFailStatus(httpStatusCode) then Fail
    else Error
  }

  /** On a derivable code the derived status is read off the hundreds digit. */
  lemma DeriveStatusByClass(c: int)
    requires StatusIsDerivable(c)
    ensures DeriveStatus(c) == (if StatusClass(c) == 2 then Success else if StatusClass(c) == 4 then Fail else Error)
    ensures StatusClass(c) == 5 <==> DeriveStatus(c) == Error
  {
    RangesAreStatusClasses(c);
  }

  /** The boundary codes and the out-of-range fallbacks. */
  lemma DeriveStatusBoundaries()
    ensures DeriveStatus(200) == Success && DeriveStatus(299) == Success
    ensures DeriveStatus(400) == Fail && DeriveStatus(499) == Fail
    ensures DeriveStatus(500) == Error && DeriveStatus(599) == Error
    ensures DeriveStatus(0) == Error && DeriveStatus(300) == Error && DeriveStatus(600) == Error
    ensures DeriveStatus(199) == Error && DeriveStatus(399) == Error
  {
  }
}

=== FILE: renderer.dfy ===
/** The default message renderer: every `%word` placeholder is replaced by `data[word]`. */
module Renderer {
  import opened CharClasses

  /** Length of the run of word characters at the start of `t`. */
  function WordRun(t: string): (n: nat)
    ensures n <= |t|
    ensures forall j :: 0 <= j < n ==> IsWordChar(t[j])
    ensures n < |t| ==> !IsWordChar(t[n])
    decreases |t|
  {
    if |t| > 0 && IsWordChar(t[0]) then 1 + WordRun(t[1..]) else 0
  }

  /** A placeholder key: one or more word characters. */
  predicate IsKey(k: string) {
    |k| >= 1 && forall j :: 0 <= j < |k| ==> IsWordChar(k[j])
  }

  /** `%\w+` matches at the start of `t`. */
  predicate StartsPlaceholder(t: string) {
    |t| >= 2 && t[0] == '%' && IsWordChar(t[1])
  }

  /** Some position of `t` starts a placeholder. */
  ghost predicate HasPlaceholder(t: string) {
    exists i :: 0 <= i < |t| && StartsPlaceholder(t[i..])
  }

  /** `String(data[key])`: a missing key reads as `undefined`, which renders as "undefined". */
  function Lookup(data: map<string, string>, key: string): string {
    if key in data then data[key] else "undefined"
  }

  /**
   * `template.replace(/%\w+/g, m => data[m.slice(1)])`: one left-to-right pass; each
   * placeholder is as long as possible, and replaced text is not scanned again.
   */
  function Render(template: string, data: map<string, string>): (r: string)
    ensures !HasPlaceholder(template) ==> r == template
    decreases |template|
  {
    if |template| == 0 then ""
    else if StartsPlaceholder(template) then
      var n := 1 + WordRun(template[1..]);
      assert template[0..] == template;
      Lookup(data, template[1..n]) + Render(template[n..], data)
    else
      NoPlaceholderInTail(template);
      [template[0]] + Render(template[1..], data)
  }

  lemma NoPlaceholderInTail(t: string)
    requires |t| >= 1
    ensures HasPlaceholder(t[1..]) ==> HasPlaceholder(t)
  {
    if HasPlaceholder(t[1..]) {
      var i :| 0 <= i < |t| - 1 && StartsPlaceholder(t[1..][i..]);
      assert t[1..][i..] == t[i + 1..];
    }
  }

  /** A maximal placeholder `%key` is replaced by the value of `key`, and rendering goes on after it. */
  lemma {:induction false} RenderPlaceholder(key: string, rest: string, data: map<string, string>)
    requires IsKey(key)
    requires |rest| == 0 || !IsWordChar(rest[0])
    ensures Render("%" + key + rest, data) == Lookup(data, key) + Render(rest, data)
  {
    var t := "%" + key + rest;
    assert t[1..] == key + rest;
    WordRunOfKey(key, rest);
    assert t[1..1 + |key|] == key;
    assert t[1 + |key|..] == rest;
  }

  lemma {:induction false} WordRunOfKey(key: string, rest: string)
    requires forall j :: 0 <= j < |key| ==> IsWordChar(key[j])
    requires |rest| == 0 || !IsWordChar(rest[0])
    ensures WordRun(key + rest) == |key|
    decreases |key|
  {
    if |key| > 0 {
      assert (key + rest)[1..] == key[1..] + rest;
      WordRunOfKey(key[1..], rest);
    } else {
      assert key + rest == rest;
    }
  }

  /** A character that does not start a placeholder is copied, including a lone "%". */
  lemma RenderLiteral(c: char, rest: string, data: map<string, string>)
    requires c != '%' || |rest| == 0 || !IsWordChar(rest[0])
    ensures Render([c] + rest, data) == [c] + Render(rest, data)
  {
    assert ([c] + rest)[1..] == rest;
  }

  /**
   * Rendering distributes over concatenation when the second part is empty or starts
   * with a non-word character, so that no placeholder runs across the cut.
   */
  lemma {:induction false} RenderConcat(a: string, b: string, data: map<string, string>)
    requires |b| == 0 || !IsWordChar(b[0])
    ensures Render(a + b, data) == Render(a, data) + Render(b, data)
    decreases |a|
  {
    if |a| == 0 {
      assert a + b == b;
    } else if StartsPlaceholder(a) {
      var n := 1 + WordRun(a[1..]);
      var key, tail := a[1..n], a[n..];
      assert a == "%" + key + tail;
      RenderConcat(tail, b, data);
      ConcatAfterPlaceholder(key, tail, b, data);
    } else {
      var tail := a[1..];
      assert a == [a[0]] + tail;
      RenderConcat(tail, b, data);
      ConcatAfterLiteral(a[0], tail, b, data);
    }
  }

  lemma ConcatAfterPlaceholder(key: string, tail: string, b: string, data: map<string, string>)
    requires IsKey(key)
    requires |tail| == 0 || !IsWordChar(tail[0])
    requires |b| == 0 || !IsWordChar(b[0])
    requires Render(tail + b, data) == Render(tail, data) + Render(b, data)
    ensures Render("%" + key + tail + b, data) == Render("%" + key + tail, data) + Render(b, data)
  {
    var tb := tail + b;
    assert |tb| == 0 || !IsWordChar(tb[0]);
    var head := "%" + key;
    Associative(head, tail, b);
    RenderPlaceholder(key, tb, data);
    RenderPlaceholder(key, tail, data);
    var v, rt, rb := Lookup(data, key), Render(tail, data), Render(b, data);
    calc {
      Render(head + tail + b, data);
      Render(head + tb, data);
      v + Render(tb, data);
      v + (rt + rb);
      { Associative(v, rt, rb); }
      v + rt + rb;
      Render(head + tail, data) + rb;
    }
  }

  lemma ConcatAfterLiteral(c: char, tail: string, b: string, data: map<string, string>)
    requires !StartsPlaceholder([c] + tail)
    requires |b| == 0 || !IsWordChar(b[0])
    requires Render(tail + b, data) == Render(tail, data) + Render(b, data)
    ensures Render([c] + tail + b, data) == Render([c] + tail, data) + Render(b, data)
  {
    var tb := tail + b;
    if |tail| > 0 {
      assert ([c] + tail)[1] == tail[0] == tb[0];
    } else {
      assert tb == b;
    }
    Associative([c], tail, b);
    RenderLiteral(c, tb, data);
    RenderLiteral(c, tail, data);
    Associative([c], Render(tail, data), Render(b, data));
  }

  /**
   * Regrouping a concatenation, stated once so that the proofs above can use it
   * without unfolding `Render` on each side.
   */
  lemma Associative(x: string, y: string, z: string)
    ensures x + (y + z) == (x + y) + z
  {
  }

  /** Replacement text is never rescanned, even when it looks like a placeholder itself. */
  lemma SinglePass(key: string, data: map<string, string>)
    requires IsKey(key)
    ensures Render("%" + key, data) == Lookup(data, key)
  {
    RenderPlaceholder(key, "", data);
    assert "%" + key + "" == "%" + key;
  }

  /** A placeholder whose key is absent from the data renders as the text "undefined". */
  lemma MissingKeyRendersUndefined(key: string, data: map<string, string>)
    requires IsKey(key) && key !in data
    ensures Render("%" + key, data) == "undefined"
  {
    SinglePass(key, data);
  }

  /** Text without a "%" is rendered unchanged. */
  lemma NoPercentUnchanged(t: string, data: map<string, string>)
    requires '%' !in t
    ensures Render(t, data) == t
  {
    forall i | 0 <= i < |t|
      ensures !StartsPlaceholder(t[i..])
    {
      assert t[i..][0] == t[i] && t[i] in t;
    }
  }

  /** A template of two placeholders, each followed by plain text, renders both values in place. */
  lemma TwoPlaceholders(k1: string, mid: string, k2: string, tail: string, data: map<string, string>)
    requires IsKey(k1) && IsKey(k2)
    requires '%' !in mid && '%' !in tail
    requires |mid| >= 1 && !IsWordChar(mid[0])
    requires |tail| >= 1 && !IsWordChar(tail[0])
    ensures Render("%" + k1 + (mid + ("%" + k2 + tail)), data) == Lookup(data, k1) + (mid + (Lookup(data, k2) + tail))
  {
    var second := "%" + k2 + tail;
    RenderPlaceholder(k2, tail, data);
    NoPercentUnchanged(tail, data);
    RenderConcat(mid, second, data);
    NoPercentUnchanged(mid, data);
    RenderPlaceholder(k1, mid + second, data);
  }

  /** `"%resource (%id) not found"` renders as the resource, then the id in parentheses, then " not found". */
  lemma NotFoundExample(template: string, resource: string, id: string)
    requires template == "%resource (%id) not found"
    ensures Render(template, map["resource" := resource, "id" := id]) == resource + " (" + id + ") not found"
  {
    var data := map["resource" := resource, "id" := id];
    var k1, mid, k2, tail := "resource", " (", "id", ") not found";
    assert IsKey(k2) by {
      assert k2[0] == 'i' && k2[1] == 'd';
    }
    assert IsKey(k1) by {
      forall j | 0 <= j < |k1|
        ensures IsWordChar(k1[j])
      {
        assert k1[j] in k1;
      }
    }
    assert template == "%" + k1 + (mid + ("%" + k2 + tail));
    TwoPlaceholders(k1, mid, k2, tail, data);
    assert Lookup(data, k1) == resource && Lookup(data, k2) == id;
    Associative(mid, id, tail);
    Associative(resource, mid + id, tail);
    Associative(resource, mid, id);
  }
}

=== FILE: stack.dfy ===
/**
 * Stack cleanup: one non-global replace of the frame pattern `\n<indent>*at.+\r?\n`
 * by a single "\n". As written the indent class is `\w`; see `Indent`.
 */
module Stack {
  import opened Wrappers
  import opened CharClasses

  /**
   * The character class allowed between the leading "\n" and "at".
   * `WordChars` is `\w`, as the pattern is written; `Blanks` (space or tab) is the
   * indentation a V8 frame line actually starts with.
   */
  datatype Indent = WordChars | Blanks

  predicate IsIndentChar(ind: Indent, c: char) {
    match ind
    case WordChars => IsWordChar(c)
    case Blanks => c == ' ' || c == '\t'
  }

  lemma IndentIsNotLineTerminator(ind: Indent, c: char)
    ensures IsIndentChar(ind, c) ==> !IsLineTerminator(c)
  {
  }

  /** A half-open range `[start, end)` of a string. */
  datatype Span = Span(start: nat, end: nat)

  /**
   * `w` is a word of the pattern's language, split as "\n", indent `w[1..k]`, "at",
   * the `.+` part `w[k+2..d]`, an optional "\r" at `d`, and the final "\n".
   */
  ghost predicate FrameShape(ind: Indent, w: string, k: nat, d: nat) {
    && 1 <= k && k + 2 < d < |w|
    && w[0] == '\n'
    && (forall j :: 1 <= j < k ==> IsIndentChar(ind, w[j]))
    && w[k] == 'a' && w[k + 1] == 't'
    && (forall j :: k + 2 <= j < d ==> !IsLineTerminator(w[j]))
    && (d == |w| - 1 || (d == |w| - 2 && w[d] == '\r'))
    && w[|w| - 1] == '\n'
  }

  ghost predicate IsFrameMatch(ind: Indent, w: string) {
    exists k: nat, d: nat :: FrameShape(ind, w, k, d)
  }

  /** The pattern matches exactly `s[i..e]`. */
  ghost predicate FrameAt(ind: Indent, s: string, i: nat, e: nat) {
    i <= e <= |s| && IsFrameMatch(ind, s[i..e])
  }

  /** No substring of `s` matches the pattern. */
  ghost predicate NoFrame(ind: Indent, s: string) {
    forall i: nat, e: nat :: !FrameAt(ind, s, i, e)
  }

  /** `sp` is the match a non-global `replace` acts on: no match starts further left. */
  ghost predicate LeftmostFrame(ind: Indent, s: string, sp: Span) {
    && FrameAt(ind, s, sp.start, sp.end)
    && forall i: nat, e: nat :: i < sp.start ==> !FrameAt(ind, s, i, e)
  }

  lemma FrameMatchLength(ind: Indent, w: string)
    requires IsFrameMatch(ind, w)
    ensures |w| >= 5
  {
  }

  /** The first index at or after `j` holding a line terminator, or `|s|` if there is none. */
  function LineEnd(s: string, j: nat): (p: nat)
    requires j <= |s|
    ensures j <= p <= |s|
    ensures forall m :: j <= m < p ==> !IsLineTerminator(s[m])
    ensures p < |s| ==> IsLineTerminator(s[p])
    decreases |s| - j
  {
    if j == |s| || IsLineTerminator(s[j]) then j else LineEnd(s, j + 1)
  }

  lemma LineEndIs(s: string, j: nat, q: nat)
    requires j <= q <= |s|
    requires forall m :: j <= m < q ==> !IsLineTerminator(s[m])
    requires q == |s| || IsLineTerminator(s[q])
    ensures LineEnd(s, j) == q
  {
  }

  /** `<indent>*at.` matches from `j` with the `.` still before `p`. */
  predicate IndentThenAt(ind: Indent, s: string, j: nat, p: nat)
    requires j <= p <= |s|
    decreases p - j
  {
    && j + 2 < p
    && ((s[j] == 'a' && s[j + 1] == 't') || (IsIndentChar(ind, s[j]) && IndentThenAt(ind, s, j + 1, p)))
  }

  lemma {:induction false} IndentThenAtWitness(ind: Indent, s: string, j: nat, p: nat) returns (k: nat)
    requires j <= p <= |s|
    requires IndentThenAt(ind, s, j, p)
    ensures j <= k && k + 2 < p
    ensures forall m :: j <= m < k ==> IsIndentChar(ind, s[m])
    ensures s[k] == 'a' && s[k + 1] == 't'
    decreases p - j
  {
    if s[j] == 'a' && s[j + 1] == 't' {
      k := j;
    } else {
      k := IndentThenAtWitness(ind, s, j + 1, p);
    }
  }

  lemma {:induction false} IndentThenAtFromWitness(ind: Indent, s: string, j: nat, p: nat, k: nat)
    requires j <= k && k + 2 < p <= |s|
    requires forall m :: j <= m < k ==> IsIndentChar(ind, s[m])
    requires s[k] == 'a' && s[k + 1] == 't'
    ensures IndentThenAt(ind, s, j, p)
    decreases k - j
  {
    if j < k {
      IndentThenAtFromWitness(ind, s, j + 1, p, k);
    }
  }

  /** The end of the match that starts at `i`, computed without backtracking. */
  ghost predicate FrameEndsAt(ind: Indent, s: string, i: nat, e: nat)
    requires i <= |s|
  {
    && i < |s| && s[i] == '\n'
    && var p := LineEnd(s, i + 1);
       && IndentThenAt(ind, s, i + 1, p)
       && ((p < |s| && s[p] == '\n' && e == p + 1)
           || (p + 1 < |s| && s[p] == '\r' && s[p + 1] == '\n' && e == p + 2))
  }

  lemma FrameEndsAtSound(ind: Indent, s: string, i: nat, e: nat)
    requires i <= |s|
    requires FrameEndsAt(ind, s, i, e)
    ensures FrameAt(ind, s, i, e)
  {
    var p := LineEnd(s, i + 1);
    var k := IndentThenAtWitness(ind, s, i + 1, p);
    var w := s[i..e];
    forall j | 1 <= j < k - i
      ensures IsIndentChar(ind, w[j])
    {
      assert w[j] == s[i + j];
    }
    forall j | k - i + 2 <= j < p - i
      ensures !IsLineTerminator(w[j])
    {
      assert w[j] == s[i + j];
    }
    assert FrameShape(ind, w, k - i, p - i);
  }

  lemma FrameEndsAtComplete(ind: Indent, s: string, i: nat, e: nat)
    requires FrameAt(ind, s, i, e)
    ensures FrameEndsAt(ind, s, i, e)
  {
    var w := s[i..e];
    var k: nat, d: nat :| FrameShape(ind, w, k, d);
    assert s[i] == w[0];
    forall m | i + 1 <= m < i + d
      ensures !IsLineTerminator(s[m])
    {
      assert s[m] == w[m - i];
      if m - i < k {
        IndentIsNotLineTerminator(ind, w[m - i]);
      }
    }
    assert s[i + d] == w[d];
    LineEndIs(s, i + 1, i + d);
    forall m | i + 1 <= m < i + k
      ensures IsIndentChar(ind, s[m])
    {
      assert s[m] == w[m - i];
    }
    assert s[i + k] == w[k] && s[i + k + 1] == w[k + 1];
    IndentThenAtFromWitness(ind, s, i + 1, i + d, i + k);
    assert s[e - 1] == w[|w| - 1];
  }

  /**
   * The end of the match starting at `i`, if there is one. There is at most one,
   * so the order in which a backtracking engine tries the alternatives is immaterial.
   */
  function FrameEndAt(ind: Indent, s: string, i: nat): (r: Option<nat>)
    requires i <= |s|
    ensures forall e: nat :: FrameAt(ind, s, i, e) <==> r == Some(e)
  {
    if i < |s| && s[i] == '\n' then
      var p := LineEnd(s, i + 1);
      if IndentThenAt(ind, s, i + 1, p) && p < |s| && s[p] == '\n' then
        FrameEndsAtSound(ind, s, i, p + 1);
        CompleteAll(ind, s, i);
        Some(p + 1)
      else if IndentThenAt(ind, s, i + 1, p) && p + 1 < |s| && s[p] == '\r' && s[p + 1] == '\n' then
        FrameEndsAtSound(ind, s, i, p + 2);
        CompleteAll(ind, s, i);
        Some(p + 2)
      else
        CompleteAll(ind, s, i);
        None
    else
      CompleteAll(ind, s, i);
      None
  }

  lemma CompleteAll(ind: Indent, s: string, i: nat)
    requires i <= |s|
    ensures forall e: nat :: FrameAt(ind, s, i, e) ==> FrameEndsAt(ind, s, i, e)
  {
    forall e: nat | FrameAt(ind, s, i, e)
      ensures FrameEndsAt(ind, s, i, e)
    {
      FrameEndsAtComplete(ind, s, i, e);
    }
  }

  /** The leftmost match starting at or after `from`. */
  function FindFrame(ind: Indent, s: string, from: nat): (m: Option<Span>)
    requires from <= |s|
    ensures m.Some? ==> from <= m.value.start && FrameAt(ind, s, m.value.start, m.value.end)
    ensures m.Some? ==> forall i: nat, e: nat :: from <= i < m.value.start ==> !FrameAt(ind, s, i, e)
    ensures m.None? ==> forall i: nat, e: nat :: from <= i ==> !FrameAt(ind, s, i, e)
    decreases |s| - from
  {
    match FrameEndAt(ind, s, from)
    case Some(e) => Some(Span(from, e))
    case None =>
      if from == |s| then None else FindFrame(ind, s, from + 1)
  }

  /** There is only one leftmost match. */
  lemma LeftmostFrameUnique(ind: Indent, s: string, a: Span, b: Span)
    requires LeftmostFrame(ind, s, a) && LeftmostFrame(ind, s, b)
    ensures a == b
  {
    assert a.start == b.start;
    var _ := FrameEndAt(ind, s, a.start);
  }

  /**
   * `stack.replace(pattern, "\n")`: the leftmost match is replaced by one "\n"; the
   * text before it and the text after it are kept in order; with no match the input
   * is returned unchanged.
   */
  function CleanupFirstFrame(ind: Indent, s: string): (r: string)
    ensures r == s <==> NoFrame(ind, s)
    ensures !NoFrame(ind, s) ==> exists sp :: LeftmostFrame(ind, s, sp)
    ensures forall sp :: LeftmostFrame(ind, s, sp) ==> r == s[..sp.start] + "\n" + s[sp.end..]
    ensures |r| <= |s|
    ensures !NoFrame(ind, s) ==> |r| + 4 <= |s|
  {
    match FindFrame(ind, s, 0)
    case None => s
    case Some(sp) =>
      FrameMatchLength(ind, s[sp.start..sp.end]);
      assert LeftmostFrame(ind, s, sp);
      UniqueAll(ind, s, sp);
      s[..sp.start] + "\n" + s[sp.end..]
  }

  lemma UniqueAll(ind: Indent, s: string, sp: Span)
    requires LeftmostFrame(ind, s, sp)
    ensures forall b :: LeftmostFrame(ind, s, b) ==> b == sp
  {
    forall b | LeftmostFrame(ind, s, b)
      ensures b == sp
    {
      LeftmostFrameUnique(ind, s, sp, b);
    }
  }

  /** `cleanupStack` as written: the indent before "at" is `\w*`. */
  function CleanupStack(stack: string): string {
    CleanupFirstFrame(WordChars, stack)
  }

  /** `cleanupStack` with the indent the frame lines of a V8 stack trace actually have. */
  function CleanupStackCorrected(stack: string): string {
    CleanupFirstFrame(Blanks, stack)
  }

  /** A match can only start at a line break followed by an indent character or by "at". */
  lemma FrameStart(ind: Indent, s: string, i: nat, e: nat)
    ensures FrameAt(ind, s, i, e) ==>
              && i + 1 < |s| && s[i] == '\n'
              && (IsIndentChar(ind, s[i + 1]) || (i + 2 < |s| && s[i + 1] == 'a' && s[i + 2] == 't'))
  {
    if FrameAt(ind, s, i, e) {
      var w := s[i..e];
      var k, d :| FrameShape(ind, w, k, d);
      assert w[0] == s[i] && w[1] == s[i + 1];
      if k == 1 {
        assert w[2] == s[i + 2];
      }
    }
  }

  /**
   * A stack whose first frame line follows a header line is cleaned by deleting
   * exactly that frame line, whatever the lines after it contain.
   */
  lemma FirstFrameRemoved(ind: Indent, header: string, indent: string, body: string, rest: string)
    requires '\n' !in header
    requires forall c :: c in indent ==> IsIndentChar(ind, c)
    requires |body| >= 1 && forall c :: c in body ==> !IsLineTerminator(c)
    ensures CleanupFirstFrame(ind, header + "\n" + indent + "at" + body + "\n" + rest) == header + "\n" + rest
  {
    var s := header + "\n" + indent + "at" + body + "\n" + rest;
    var i0 := |header|;
    var e0 := i0 + 1 + |indent| + 2 + |body| + 1;
    var w := s[i0..e0];
    assert w == "\n" + indent + "at" + body + "\n";
    var k := 1 + |indent|;
    forall j | 1 <= j < k
      ensures IsIndentChar(ind, w[j])
    {
      assert w[j] == indent[j - 1];
    }
    forall j | k + 2 <= j < k + 2 + |body|
      ensures !IsLineTerminator(w[j])
    {
      assert w[j] == body[j - k - 2];
    }
    assert FrameShape(ind, w, k, k + 2 + |body|);
    forall i: nat, e: nat | i < i0
      ensures !FrameAt(ind, s, i, e)
    {
      assert s[i] == header[i];
      FrameStart(ind, s, i, e);
    }
    assert LeftmostFrame(ind, s, Span(i0, e0));
    assert s[..i0] == header;
    assert s[e0..] == rest;
  }

  /** Every line break of `s`, except a final one, is followed by a character outside `\w`. */
  ghost predicate LinesStartUnindentable(s: string) {
    forall j :: 0 <= j < |s| - 1 && s[j] == '\n' ==> !IsWordChar(s[j + 1])
  }

  /** When no line break is followed by a word character, the pattern as written cannot match. */
  lemma IndentedFramesKept(stack: string)
    requires LinesStartUnindentable(stack)
    ensures CleanupStack(stack) == stack
  {
    forall i: nat, e: nat
      ensures !FrameAt(WordChars, stack, i, e)
    {
      FrameStart(WordChars, stack, i, e);
    }
  }

  /** A header and two frame lines, each line starting with a non-word character. */
  lemma TwoFrameLines(header: string, first: string, second: string)
    requires '\n' !in header && '\n' !in first && '\n' !in second
    requires |first| >= 1 && !IsWordChar(first[0])
    requires |second| >= 1 && !IsWordChar(second[0])
    ensures LinesStartUnindentable(header + "\n" + first + "\n" + second + "\n")
  {
    var s := header + "\n" + first + "\n" + second + "\n";
    var a := |header|;
    var b := a + 1 + |first|;
    forall j | 0 <= j < |s| - 1
      ensures s[j] == '\n' ==> !IsWordChar(s[j + 1])
    {
      if j < a {
        assert s[j] == header[j] && header[j] in header;
      } else if a < j < b {
        assert s[j] == first[j - a - 1] && first[j - a - 1] in first;
      } else if b < j < |s| - 1 {
        assert s[j] == second[j - b - 1] && second[j - b - 1] in second;
      }
    }
  }

  /** A stack trace in V8's format: a header line, then frames indented by four spaces. */
  const V8Header: string := "Error: boom"
  const V8ConstructorFrame: string := "    " + "at" + " new E (main.ts:70:9)"
  const V8CallerFrame: string := "    at run (app.ts:3:1)"
  const V8Stack: string := V8Header + "\n" + V8ConstructorFrame + "\n" + V8CallerFrame + "\n"

  /** As written, the constructor frame of a V8 stack trace survives. */
  lemma V8StackKeptAsWritten()
    ensures CleanupStack(V8Stack) == V8Stack
  {
    TwoFrameLines(V8Header, V8ConstructorFrame, V8CallerFrame);
    IndentedFramesKept(V8Stack);
  }

  /**
   * As written, a message line whose first word contains "at" after word characters
   * is taken for a frame: the second line of "Error: bad\nformat x\n" is deleted.
   */
  lemma MessageLineRemovedAsWritten(header: string, line: string, rest: string)
    requires '\n' !in header
    requires line == "format x"
    ensures CleanupStack(header + "\n" + line + "\n" + rest) == header + "\n" + rest
  {
    var indent, body := "form", " x";
    forall c | c in indent
      ensures IsIndentChar(WordChars, c)
    {
    }
    forall c | c in body
      ensures !IsLineTerminator(c)
    {
    }
    assert header + "\n" + line + "\n" + rest == header + "\n" + indent + "at" + body + "\n" + rest;
    FirstFrameRemoved(WordChars, header, indent, body, rest);
  }

  /** With blank indentation the constructor frame is the one removed. */
  lemma V8StackCleanedCorrected()
    ensures CleanupStackCorrected(V8Stack) == V8Header + "\n" + V8CallerFrame + "\n"
  {
    var rest := V8CallerFrame + "\n";
    assert V8Stack == V8Header + "\n" + "    " + "at" + " new E (main.ts:70:9)" + "\n" + rest;
    FirstFrameRemoved(Blanks, V8Header, "    ", " new E (main.ts:70:9)", rest);
  }
}

=== FILE: values.dfy ===
/** The slice of JavaScript values the core reads and writes. */
module Values {
  import Decimal

  /**
   * A JavaScript value. Numbers are integral; objects and functions carry their own
   * enumerable properties; a function also carries its source text, which is what
   * `String(f)` yields.
   */
  datatype Value =
    | Undefined
    | Null
    | Bool(b: bool)
    | Num(n: int)
    | Str(s: string)
    | Obj(fields: map<string, Value>)
    | Func(source: string, props: map<string, Value>)

  /** `Boolean(v)`. */
  predicate IsTruthy(v: Value) {
    match v
    case Undefined => false
    case Null => false
    case Bool(b) => b
    case Num(n) => n != 0
    case Str(s) => s != ""
    case Obj(_) => true
    case Func(_, _) => true
  }

  /** `typeof v`; note that `typeof null` is "object". */
  function TypeOf(v: Value): (t: string)
    ensures t == "object" <==> v.Obj? || v.Null?
    ensures t == "string" <==> v.Str?
  {
    match v
    case Undefined => "undefined"
    case Null => "object"
    case Bool(_) => "boolean"
    case Num(_) => "number"
    case Str(_) => "string"
    case Obj(_) => "object"
    case Func(_, _) => "function"
  }

  /** Can properties be written onto `v`? Only objects and functions carry them. */
  predicate HoldsProperties(v: Value) {
    v.Obj? || v.Func?
  }

  /** The own properties of `v` (none for a primitive). */
  function OwnProperties(v: Value): map<string, Value> {
    match v
    case Obj(f) => f
    case Func(_, f) => f
    case _ => map[]
  }

  /**
   * `v[key]`: an own property, else `undefined`. Reading from `undefined` or `null`
   * throws in JavaScript; every caller in the core guards against those first.
   */
  function Get(v: Value, key: string): (r: Value)
    ensures key !in OwnProperties(v) ==> r == Undefined
  {
    var props := OwnProperties(v);
    if key in props then props[key] else Undefined
  }

  /** `v[key] = x` on an object or function. */
  function Set(v: Value, key: string, x: Value): (r: Value)
    requires HoldsProperties(v)
    ensures HoldsProperties(r) && r.Obj? == v.Obj?
    ensures OwnProperties(r) == OwnProperties(v)[key := x]
    ensures Get(r, key) == x
  {
    match v
    case Obj(f) => Obj(f[key := x])
    case Func(src, f) => Func(src, f[key := x])
  }

  /** `String(v)`. */
  function ToDisplayString(v: Value): string {
    match v
    case Undefined => "undefined"
    case Null => "null"
    case Bool(b) => if b then "true" else "false"
    case Num(n) => Decimal.IntToString(n)
    case Str(s) => s
    case Obj(_) => "[object Object]"
    case Func(src, _) => src
  }

  /** Every own property of `v`, converted with `String`. */
  function PropertyStrings(v: Value): (m: map<string, string>)
    ensures m.Keys == OwnProperties(v).Keys
    ensures forall k :: k in m ==> m[k] == ToDisplayString(Get(v, k))
  {
    var props := OwnProperties(v);
    map k | k in props :: ToDisplayString(props[k])
  }
}

=== FILE: wrappers.dfy ===
/** An optional value and a success-or-error result. */
module Wrappers {

  /** An optional value; `None` stands for a property that is `undefined`. */
  datatype Option<+T> = None | Some(value: T) {

    /** The wrapped value, or `default` when there is none. */
    function GetOr(default: T): T {
      match this
      case Some(v) => v
      case None => default
    }
  }

  /** The outcome of an operation that either returns a value or throws an error. */
  datatype Result<+R, +E> = Ok(value: R) | Err(error: E)
}
